=== FILE: README.md ===
# Vault client last-authentication report, modelled in Dafny

The script `track_vault_clients.py` queries a Vault server's activity-export
endpoint once for each of the last twelve calendar months. It keeps the most
recent authentication instant of every client identifier it sees, then writes
`clients_last_auth.csv`. Each row of the CSV holds a client, the client's last
authentication time as ISO-8601 UTC text with a `Z`, and a "roll-off month":
the same month one year later, as `YYYY-MM`.

This project models the three pure parts of that script and proves properties
of them.

- **Reporting windows** (`Windows`, on top of `Calendar`). The backward walk
  goes twelve months back from the current month, decrementing the year when
  the month runs out. The forward walk builds twelve calendar-month windows.
  Each window ends one second before the next window begins. Instants are
  proleptic Gregorian date-times, counted in seconds from 0001-01-01 the way
  Python's `datetime` orders them. The model proves:
  - the year rolls over exactly at the January/December boundary;
  - the windows are contiguous, chronological and pairwise disjoint;
  - every second from the first start to the current month's start lies in
    exactly one window.
- **Per-client maximum** (`Aggregator`). Each window's response body is a
  sequence of already-parsed lines:
  - blank lines are skipped;
  - undecodable JSON is skipped;
  - a JSON value that is not an object aborts the run, because `record.get`
    raises and nothing catches it;
  - a line without `client_id` or without `timestamp` is skipped;
  - a timestamp that does not parse aborts the run, because the exception is
    uncaught;
  - any other line updates the map when its client is new or its instant is
    strictly later.

  The fold is proved equal to an independent definition, `IsLatest`, of the
  per-client maximum. The final map therefore does not depend on:
  - the order of the lines;
  - repeated lines;
  - how the lines are spread over the windows.

  Failed `curl` calls drop only their own window's lines.
- **Report rows** (`Csv`, on top of `Decimal`). The report has a header line
  and then one row per client, in the map's insertion order. Every rendered
  field can be read back:
  - the year, month, day, hour, minute, second and microsecond read back from
    the timestamp text;
  - the following year and the same month read back from the roll-off month;
  - the row's three fields read back when it is split at commas.
- **Scenarios** works through two cases. The first is the roll-off examples
  the script's comment gives (`2024-07-03T15:48:13Z` gives `2025-07`). The
  second is a two-window run whose report holds
  `c1,2024-03-10T00:00:00Z,2025-03` and `c2,2024-02-01T00:00:00Z,2025-02`.

Environment variables, the clock, `curl`, and file and console output are
not modelled. The current instant and the per-window responses are
parameters.

Where the code and its description differ, the model follows the code:

- A timestamp that `fromisoformat` rejects is not caught, so it ends the
  whole run rather than being skipped. So does a line that decodes to a JSON
  value other than an object. `Step`, `Fold` and `Run` return `None` in those
  cases.
- When the current date is in year 1, the range start `datetime(0, …)` on
  line 25 raises. `ReportingWindows` returns `None` in that case.

## Model

| member | source | states |
|---|---|---|
| `Windows.PrevMonth` | track_vault_clients.py:21-24 | One backward step gives a valid month whose index is one less: the month before, with the year decremented when the month was January. |
| `Windows.NextMonth` | track_vault_clients.py:33-37 | One forward step gives a valid month whose index is one more: the month after, with the year incremented when the month was December. |
| `Windows.Rollover` | track_vault_clients.py:21-24 | The year changes exactly at the January/December boundary, in both directions. Otherwise only the month moves by one. |
| `Windows.PrevNextInverse` | track_vault_clients.py:21-37 | The forward step undoes the backward step, and the backward step undoes the forward step. |
| `Windows.IndexRoundTrip` | track_vault_clients.py:18-24 | The month index is a bijection between valid (year, month) pairs and integers. |
| `Windows.StartOfRange` | track_vault_clients.py:18-24 | After twelve backward steps the range starts in the same month of the previous year, twelve months before the current month. |
| `Windows.WalkForward` | track_vault_clients.py:30-38 | The window loop yields twelve contiguous windows. The first is the range start. Each later one is the month after the one before. |
| `Windows.ReportingWindows` | track_vault_clients.py:15-40 | From the current instant: no windows exactly when the range start would fall before year 1. Otherwise there are twelve contiguous windows. The first is the same month a year earlier. Each window starts at the previous window's next-month start. The last window ends where the current month begins. Every start, next-month start and end is a constructible datetime. |
| `Windows.Window.Start` | track_vault_clients.py:25-31 | A window starts at midnight on day 1 of its month. No valid instant of that month comes before it. |
| `Windows.Window.Next` | track_vault_clients.py:33-38 | The next month's start is day 1 of the following month at midnight. It lies exactly as many days after the window's start as the month has. |
| `Windows.Window.End` | track_vault_clients.py:38-40 | A window's end is 23:59:59 with microsecond 0 on the last day of its own month. It comes after the start and exactly one second before the next month's first instant. |
| `Windows.WindowInstantsValid` | track_vault_clients.py:25-40 | A window whose month lies in year 1 or later and whose following month lies in year 9999 or earlier has a constructible start, next-month start and end. The December 9999 window is excluded because its next-month start, 10000-01-01, cannot be constructed. |
| `Windows.Chronological` | track_vault_clients.py:30-87 | In contiguous windows every earlier window ends before every later window starts. So the windows are chronological and disjoint. |
| `Windows.Covers` | track_vault_clients.py:30-87 | Every second from the first window's start up to the last window's next-month start lies in exactly one window. |
| `Calendar.MonthLength` | track_vault_clients.py:38-40 | The day after a month's last day is day 1 of the next month, across the year boundary too. |
| `Calendar.YearLength` | track_vault_clients.py:38-40 | A leap year has 366 days and any other year 365, under the Gregorian rule. |
| `Calendar.Before` | track_vault_clients.py:84 | `record_time > last_auth[client_id]` on two UTC datetimes compares the fields from the year down to the microsecond. |
| `Calendar.BeforeIsStrictTotalOrder` | track_vault_clients.py:84 | The datetime comparison used to keep the later instant is a strict total order. |
| `Aggregator.Accepted` | track_vault_clients.py:80-83 | A line updates the map when it is a record whose `client_id` and `timestamp` are both truthy and whose timestamp parses. |
| `Aggregator.Fatal` | track_vault_clients.py:73-83 | A line ends the run when it decodes to a JSON value that is not an object, or has a truthy `client_id` and a timestamp that does not parse. A fatal line is never accepted. A record with a truthy `client_id` and a truthy timestamp is either accepted or fatal, never skipped. |
| `Aggregator.Update` | track_vault_clients.py:84-85 | The map gains the client, and only the client. Its stored instant becomes the later of the old and new instants. Other clients are unchanged. A new client is appended to the insertion order. The map stays well formed. |
| `Aggregator.Step` | track_vault_clients.py:67-85 | A line aborts exactly when it is fatal. Blank, undecodable and incomplete lines leave the map unchanged. Accepted lines update it. |
| `Aggregator.StepIsLatest` | track_vault_clients.py:80-85 | A non-fatal line yields the per-client maximum over the old map and that one line. |
| `Aggregator.LatestCompose` | track_vault_clients.py:67-85 | The maximum over one block of lines, followed by the maximum over a second block, is the maximum over both blocks together. |
| `Aggregator.Fold` | track_vault_clients.py:67-85 | The line loop gives no map exactly when some line is fatal. Otherwise its map is well formed. |
| `Aggregator.RunFrom` | track_vault_clients.py:30-87 | The window loop from a given map gives no map exactly when some successful response holds a fatal line. Otherwise its map is well formed. |
| `Aggregator.Run` | track_vault_clients.py:27-87 | The same, starting from the empty dictionary of line 27. |
| `Aggregator.FoldAbortsOnFatal` | track_vault_clients.py:67-85 | The line loop aborts exactly when some line is fatal. |
| `Aggregator.FoldComputesLatest` | track_vault_clients.py:67-85 | When the line loop completes, its map is the per-client maximum. Its keys are the old keys plus the accepted ids. Each value is a candidate instant, and no candidate is later. |
| `Aggregator.LatestUnique` | track_vault_clients.py:84 | The per-client maximum over a given collection of lines is unique. |
| `Aggregator.FoldDependsOnlyOnLineSet` | track_vault_clients.py:67-85 | The outcome and the final map depend only on which lines occur. |
| `Aggregator.FoldPermutationInvariant` | track_vault_clients.py:67-85 | Reordering the lines changes neither the outcome nor the final map. |
| `Aggregator.FoldRefeedIdempotent` | track_vault_clients.py:84-85 | Feeding an already processed line again changes neither the outcome nor the final map. |
| `Aggregator.FoldAppend` | track_vault_clients.py:66-85 | Folding a concatenation folds the first part, then the second part from the result. |
| `Aggregator.RunFoldsAllLines` | track_vault_clients.py:30-87 | Processing window after window equals one fold over the lines of all successful responses. A failed `curl` contributes no lines. |
| `Aggregator.RunIndependentOfPartition` | track_vault_clients.py:30-87 | Runs over the same lines, however they are split across windows or ordered, give the same outcome and the same final map. |
| `Aggregator.RunKeepsLatest` | track_vault_clients.py:27-87 | The run aborts exactly when a fatal line is present. Otherwise every client's stored instant is the latest of its accepted records. |
| `Aggregator.RunIsReportable` | track_vault_clients.py:83-99 | When every parsed timestamp is a valid datetime, a completed run's map is well formed and each of its instants is valid, so the report can render it. |
| `Decimal.DigitsRoundTrip` | track_vault_clients.py:101 | The plain decimal rendering of a year reads back as that year. |
| `Decimal.Digits` | track_vault_clients.py:101 | `str()` of the year: a non-empty string of decimal digits without a leading zero. That it reads back as the year is proved by `Decimal.DigitsRoundTrip`. |
| `Decimal.DigitsLength` | track_vault_clients.py:101 | A number fits in `w` digits exactly when it is below 10 to the power `w`. |
| `Decimal.PaddedRoundTrip` | track_vault_clients.py:101 | A zero-padded rendering is all digits and reads back as its number. |
| `Decimal.Padded` | track_vault_clients.py:101 | The `:02d` format of the month: the number's digits, padded on the left with zeros to the width. Its length is the width, or the digit count when the number does not fit. That it reads back as the number is proved by `Decimal.PaddedRoundTrip`. |
| `Decimal.PaddedWidth` | track_vault_clients.py:101 | `%02d` of a month has exactly two characters. |
| `Csv.RollOffMonth` | track_vault_clients.py:101 | The f-string `f"{dt.year + 1}-{dt.month:02d}"`. No contract of its own. Its read-back as the following year and the same month is proved by `Csv.RollOffRoundTrip`. |
| `Csv.RollOffRoundTrip` | track_vault_clients.py:101 | The roll-off month reads back as the following year and the same month. Its year has no leading zero, and its month has exactly two digits. |
| `Csv.Iso` | track_vault_clients.py:100 | The timestamp text has 20 characters for whole seconds and 27 otherwise. The read-back lemmas below state its contents. |
| `Csv.DateReadsBack` | track_vault_clients.py:100 | The date part of the timestamp text reads back as the year, month and day: four, two and two digits, separated by dashes. |
| `Csv.TimeReadsBack` | track_vault_clients.py:100 | The time part reads back as the hour, minute and second: two digits each, separated by colons. |
| `Csv.FractionReadsBack` | track_vault_clients.py:100 | The fraction is absent exactly when the microseconds are zero. Otherwise it is a dot followed by six digits that read back as the microseconds. |
| `Csv.IsoLayout` | track_vault_clients.py:100 | The timestamp text is the date, `T`, the time, the fraction and the `Z` designator, at fixed offsets. |
| `Csv.RenderedFieldsHaveNoComma` | track_vault_clients.py:100-102 | Neither the timestamp text nor the roll-off month contains a comma. |
| `Csv.Row` | track_vault_clients.py:102 | The f-string `f"{cid},{last_auth_str},{roll_off_month}"`, without its newline. No contract of its own. Its read-back into the three fields is proved by `Csv.RowFields`. |
| `Csv.RowFields` | track_vault_clients.py:100-102 | Splitting a row at commas gives back the client id, the timestamp text and the roll-off month, provided the id has no comma. |
| `Csv.JoinFields` | track_vault_clients.py:102 | Joining a line's comma-split fields with commas gives the line back. So a line is determined by its fields. |
| `Csv.OrderListsEveryKeyOnce` | track_vault_clients.py:99 | The insertion order lists as many clients as the map holds. |
| `Csv.Report` | track_vault_clients.py:96-102 | The report is the header followed by one row per client, in insertion order: as many rows as the map has clients. |
| `Csv.ReportHasClientRow` | track_vault_clients.py:99-102 | Every client in the map has its row in the report, after the header, at its position in the insertion order. |
| `Csv.Output` | track_vault_clients.py:27-102 | The script's output from the windows' responses: nothing exactly when a successful response holds a fatal line. Otherwise it is the header and then one row per client, in the map's insertion order (`Aggregator.Update` appends each new client to it), each with the client's latest instant. The run's map is well formed and all its instants are valid. |
| `Scenarios.RollOffMidYear` | track_vault_clients.py:93-94 | A last authentication on 2024-07-03 at 15:48:13 rolls off in `2025-07`. |
| `Scenarios.RollOffDecember` | track_vault_clients.py:101 | A last authentication in December 2023 rolls off in `2024-12`. |
| `Scenarios.TwoWindowsAggregate` | track_vault_clients.py:30-87 | Take a client seen in January in one window, then in March in the next window, and a second client seen in February. The run keeps March for the first client and February for the second, in first-seen order. |
| `Scenarios.TwoWindowsReport` | track_vault_clients.py:96-102 | The report for that map is exactly three lines: the header, `c1,2024-03-10T00:00:00Z,2025-03` and `c2,2024-02-01T00:00:00Z,2025-02`. |
| `Scenarios.TwoWindowsOutput` | track_vault_clients.py:27-102 | End to end on the same two windows: every parsed timestamp is a valid datetime, and the script's output is exactly the header, `c1,2024-03-10T00:00:00Z,2025-03` and `c2,2024-02-01T00:00:00Z,2025-02`. |

## Left out

- Lines 7-12: reading `VAULT_ADDR`, `VAULT_TOKEN` and `VAULT_NAMESPACE` and refusing to start without the first two. This is environment I/O.
- Line 15: the clock. The current instant is a parameter of `ReportingWindows`. Only its year and month are used, so dropping the time of day is not modelled either.
- Lines 42-63: building the query URL and headers, running `curl`, and printing progress and raw output. This is process and network I/O. Each window's outcome is a `Response` parameter: `Failed` for a non-zero exit status, `Body` otherwise.
- Line 66: splitting stdout into lines is not modelled. Neither are JSON decoding (line 73) and ISO-8601 parsing (line 83). A line arrives already classified as one of four kinds:
  - blank;
  - undecodable;
  - a JSON value that is not an object;
  - an object record with an optional client id and a stamp that is absent, unparsable or a parsed instant.
- Lines 80-83: a `client_id` that is a truthy non-string value is not modelled. A non-string `timestamp` raises like an unparsable one and is modelled the same way, as `Unparsable`.
- Line 83: timestamps are taken to be UTC, as the endpoint emits them with `Z`. Other offsets are not modelled. Neither are naive timestamps, whose comparison with aware ones raises.
- Lines 96-98 and 102: opening and writing the file, and the trailing newlines. The report is modelled as its sequence of lines.
- Lines 42-43: the window bounds rendered as text for the query are not modelled as text. They go only into the URL. The bounds themselves are modelled as instants by `Window.Start` and `Window.End`.
- `Windows.Covers`: coverage is stated at whole-second resolution. An instant whose microsecond is not zero, for example `23:59:59.5` on a month's last day, lies after that window's `End` and before the next window's `Start`, so it is in no closed window. The source has the same gap: line 40 ends each query one second before the next month and drops the fraction.

=== FILE: aggregator.dfy ===
/** The per-client reduction: every response line, already parsed, folded into
    a map from client id to its latest authentication instant. */
module Aggregator {
  import opened Calendar
  import opened Optional

  /** The `timestamp` field of a record: missing or empty (falsy), present but
      rejected by the ISO 8601 parser, or parsed to a UTC instant. */
  datatype Stamp = NoStamp | Unparsable | Parsed(at: DateTime)

  /** One line of a response body after stripping: empty, not decodable as
      JSON (skipped), decodable to a JSON value other than an object (whose
      missing `get` raises, uncaught), or an object record. A `clientId` of ""
      stands for a missing, null or empty `client_id`, all of which the script
      treats as false. */
  datatype Line = Blank | Malformed | NotObject | Record(clientId: string, stamp: Stamp)

  /** The outcome of one window's request: a failed request contributes no
      lines. */
  datatype Response = Failed | Body(lines: seq<Line>)

  /** The accumulated map, together with its keys in first-insertion order
      (the order in which the dictionary iterates them). */
  datatype LastAuth = LastAuth(order: seq<string>, latest: map<string, DateTime>)
  {
    /** `order` lists each key of `latest` exactly once. */
    ghost predicate WellFormed() {
      && (forall i, j :: 0 <= i < j < |order| ==> order[i] != order[j])
      && (forall k :: k in latest <==> k in order)
    }
  }

  const Empty := LastAuth([], map[])

  /** A line that carries both a client id and a parsed timestamp. */
  predicate Accepted(l: Line) {
    l.Record? && l.clientId != "" && l.stamp.Parsed?
  }

  /** A line whose processing raises: a JSON value that is not an object, or
      a timestamp the parser rejects. The exception is not caught, so the run
      ends there. A fatal line is never accepted, and a record with a client
      id and a timestamp is exactly one of the two. */
  predicate Fatal(l: Line): (r: bool)
    ensures r ==> !Accepted(l)
    ensures l.Record? && l.clientId != "" && !l.stamp.NoStamp? ==> (r <==> !Accepted(l))
  {
    l.NotObject? || (l.Record? && l.clientId != "" && l.stamp.Unparsable?)
  }

  /** Record `t` for `id`: stored when `id` is new or `t` is strictly later
      than the stored instant. */
  function Update(a: LastAuth, id: string, t: DateTime): (r: LastAuth)
    requires a.WellFormed()
    ensures r.WellFormed()
    ensures r.latest.Keys == a.latest.Keys + {id}
    ensures r.latest[id] == t || (id in a.latest && r.latest[id] == a.latest[id])
    ensures !Before(r.latest[id], t)
    ensures id in a.latest ==> !Before(r.latest[id], a.latest[id])
    ensures forall k :: k in a.latest && k != id ==> r.latest[k] == a.latest[k]
    ensures r.order == if id in a.latest then a.order else a.order + [id]
  {
    BeforeIsStrictTotalOrder();
    if id !in a.latest then LastAuth(a.order + [id], a.latest[id := t])
    else if Before(a.latest[id], t) then LastAuth(a.order, a.latest[id := t])
    else a
  }

  /** Process one line: skipped when blank, undecodable or lacking a field,
      fatal when it is not an object or its timestamp does not parse, an
      update otherwise. */
  function Step(a: LastAuth, l: Line): (r: Option<LastAuth>)
    requires a.WellFormed()
    ensures r.None? <==> Fatal(l)
    ensures !Accepted(l) && !Fatal(l) ==> r == Some(a)
    ensures Accepted(l) ==> r == Some(Update(a, l.clientId, l.stamp.at))
  {
    match l
    case Blank => Some(a)
    case Malformed => Some(a)
    case NotObject => None
    case Record(id, stamp) =>
      if id != "" then
        match stamp
        case NoStamp => Some(a)
        case Unparsable => None
        case Parsed(t) => Some(Update(a, id, t))
      else Some(a)
  }

  /** Some line of the sequence is fatal. */
  predicate HasFatal(lines: seq<Line>) {
    exists i :: 0 <= i < |lines| && Fatal(lines[i])
  }

  /** Process lines in order, stopping at the first fatal one: the result is
      absent exactly when some line is fatal. */
  function Fold(a: LastAuth, lines: seq<Line>): (r: Option<LastAuth>)
    requires a.WellFormed()
    ensures r.None? <==> HasFatal(lines)
    ensures r.Some? ==> r.value.WellFormed()
    decreases |lines|
  {
    if |lines| == 0 then Some(a)
    else
      assert forall i :: 1 <= i < |lines| ==> lines[1..][i - 1] == lines[i];
      match Step(a, lines[0])
      case None => None
      case Some(a') => Fold(a', lines[1..])
  }

  /** The lines of every successful response, window after window. */
  function AllLines(responses: seq<Response>): seq<Line> {
    if |responses| == 0 then []
    else
      (match responses[0] case Failed => [] case Body(lines) => lines)
        + AllLines(responses[1..])
  }

  /** Some successful response holds a fatal line. */
  predicate AnyFatal(responses: seq<Response>) {
    exists i :: 0 <= i < |responses| && responses[i].Body? && HasFatal(responses[i].lines)
  }

  /** Process every window's response in turn, from an empty map: the run
      aborts exactly when some successful response holds a fatal line. */
  function Run(responses: seq<Response>): (r: Option<LastAuth>)
    ensures r.None? <==> AnyFatal(responses)
    ensures r.Some? ==> r.value.WellFormed()
  {
    RunFrom(Empty, responses)
  }

  function RunFrom(a: LastAuth, responses: seq<Response>): (r: Option<LastAuth>)
    requires a.WellFormed()
    ensures r.None? <==> AnyFatal(responses)
    ensures r.Some? ==> r.value.WellFormed()
    decreases |responses|
  {
    if |responses| == 0 then Some(a)
    else
      assert forall i :: 1 <= i < |responses| ==> responses[1..][i - 1] == responses[i];
      match responses[0]
      case Failed => RunFrom(a, responses[1..])
      case Body(lines) =>
        match Fold(a, lines)
        case None => None
        case Some(a') => RunFrom(a', responses[1..])
  }

  /** Some line names client `k` and is accepted. */
  ghost predicate Seen(lines: seq<Line>, k: string) {
    exists l :: l in lines && Accepted(l) && l.clientId == k
  }

  /** Some accepted line carries instant `t` for client `k`. */
  ghost predicate SeenAt(lines: seq<Line>, k: string, t: DateTime) {
    exists l :: l in lines && Accepted(l) && l.clientId == k && l.stamp.at == t
  }

  /** `m` is `m0` extended by the accepted lines under the maximum: its keys
      are those of `m0` and the ids seen, each value is one of the candidate
      instants for its key, and no candidate is later than it. */
  ghost predicate IsLatest(m0: map<string, DateTime>, lines: seq<Line>, m: map<string, DateTime>) {
    && (forall k :: k in m <==> k in m0 || Seen(lines, k))
    && (forall k :: k in m ==> (k in m0 && m[k] == m0[k]) || SeenAt(lines, k, m[k]))
    && (forall k :: k in m0 ==> k in m && !Before(m[k], m0[k]))
    && (forall l :: l in lines && Accepted(l) ==> l.clientId in m && !Before(m[l.clientId], l.stamp.at))
  }

  /** One accepted update is the maximum over the single line. */
  lemma StepIsLatest(a: LastAuth, l: Line)
    requires a.WellFormed() && !Fatal(l)
    ensures Step(a, l).Some? && IsLatest(a.latest, [l], Step(a, l).value.latest)
  {
    BeforeIsStrictTotalOrder();
    var m := Step(a, l).value.latest;
    forall k | k in m
      ensures (k in a.latest && m[k] == a.latest[k]) || SeenAt([l], k, m[k])
    {
      if !(k in a.latest && m[k] == a.latest[k]) {
        assert l in [l];
      }
    }
    forall k | Seen([l], k)
      ensures k in m
    {
    }
  }

  /** The maximum over `xs` followed by the maximum over `ys` is the maximum
      over `xs + ys`. */
  lemma LatestCompose(m0: map<string, DateTime>, xs: seq<Line>, m1: map<string, DateTime>,
                      ys: seq<Line>, m2: map<string, DateTime>)
    requires IsLatest(m0, xs, m1) && IsLatest(m1, ys, m2)
    ensures IsLatest(m0, xs + ys, m2)
  {
    var zs := xs + ys;
    forall k
      ensures k in m2 <==> k in m0 || Seen(zs, k)
    {
      if Seen(xs, k) {
        var l :| l in xs && Accepted(l) && l.clientId == k;
        assert l in zs;
      }
      if Seen(ys, k) {
        var l :| l in ys && Accepted(l) && l.clientId == k;
        assert l in zs;
      }
      if Seen(zs, k) {
        var l :| l in zs && Accepted(l) && l.clientId == k;
        assert l in xs || l in ys;
      }
    }
    forall k | k in m2
      ensures (k in m0 && m2[k] == m0[k]) || SeenAt(zs, k, m2[k])
    {
      if k in m1 && m2[k] == m1[k] {
        if !(k in m0 && m1[k] == m0[k]) {
          var l :| l in xs && Accepted(l) && l.clientId == k && l.stamp.at == m1[k];
          assert l in zs;
        }
      } else {
        var l :| l in ys && Accepted(l) && l.clientId == k && l.stamp.at == m2[k];
        assert l in zs;
      }
    }
    forall k | k in m0
      ensures k in m2 && !Before(m2[k], m0[k])
    {
      NotBeforeChains(m2[k], m1[k], m0[k]);
    }
    forall l | l in zs && Accepted(l)
      ensures l.clientId in m2 && !Before(m2[l.clientId], l.stamp.at)
    {
      if l in xs {
        NotBeforeChains(m2[l.clientId], m1[l.clientId], l.stamp.at);
      }
    }
  }

  /** The fold aborts exactly when a fatal line is present. */
  lemma {:induction false} FoldAbortsOnFatal(a: LastAuth, lines: seq<Line>)
    requires a.WellFormed()
    ensures Fold(a, lines).None? <==> exists l :: l in lines && Fatal(l)
    decreases |lines|
  {
    if |lines| > 0 {
      var l := lines[0];
      var rest := lines[1..];
      assert lines == [l] + rest;
      match Step(a, l)
      case None =>
      case Some(a') =>
        FoldAbortsOnFatal(a', rest);
    }
  }

  /** When the fold completes, its map is the per-client maximum over the
      starting map and the accepted lines. */
  lemma {:induction false} FoldComputesLatest(a: LastAuth, lines: seq<Line>)
    requires a.WellFormed()
    ensures Fold(a, lines).Some? ==> IsLatest(a.latest, lines, Fold(a, lines).value.latest)
    decreases |lines|
  {
    if |lines| == 0 {
      BeforeIsStrictTotalOrder();
    } else if Fold(a, lines).Some? {
      var l := lines[0];
      var rest := lines[1..];
      assert lines == [l] + rest;
      StepIsLatest(a, l);
      var a' := Step(a, l).value;
      FoldComputesLatest(a', rest);
      LatestCompose(a.latest, [l], a'.latest, rest, Fold(a', rest).value.latest);
    }
  }

  /** Two maps that are both the maximum over the same start and the same
      lines are equal. */
  lemma LatestUnique(m0: map<string, DateTime>, xs: seq<Line>, ys: seq<Line>,
                     m1: map<string, DateTime>, m2: map<string, DateTime>)
    requires forall l :: l in xs <==> l in ys
    requires IsLatest(m0, xs, m1) && IsLatest(m0, ys, m2)
    ensures m1 == m2
  {
    assert m1.Keys == m2.Keys;
    forall k | k in m1
      ensures m1[k] == m2[k]
    {
      if k in m0 && m1[k] == m0[k] {
      } else {
        var l :| l in xs && Accepted(l) && l.clientId == k && l.stamp.at == m1[k];
        assert l in ys;
      }
      if k in m0 && m2[k] == m0[k] {
      } else {
        var l :| l in ys && Accepted(l) && l.clientId == k && l.stamp.at == m2[k];
        assert l in xs;
      }
      NotBeforeAntisymmetric(m1[k], m2[k]);
    }
  }

  /** The fold's outcome and map depend only on which lines occur, not on
      their order or repetition. */
  lemma FoldDependsOnlyOnLineSet(a: LastAuth, xs: seq<Line>, ys: seq<Line>)
    requires a.WellFormed()
    requires forall l :: l in xs <==> l in ys
    ensures Fold(a, xs).None? <==> Fold(a, ys).None?
    ensures Fold(a, xs).Some? ==> Fold(a, xs).value.latest == Fold(a, ys).value.latest
  {
    FoldAbortsOnFatal(a, xs);
    FoldAbortsOnFatal(a, ys);
    FoldComputesLatest(a, xs);
    FoldComputesLatest(a, ys);
    if Fold(a, xs).Some? {
      LatestUnique(a.latest, xs, ys, Fold(a, xs).value.latest, Fold(a, ys).value.latest);
    }
  }

  /** Any permutation of the lines gives the same map. */
  lemma FoldPermutationInvariant(a: LastAuth, xs: seq<Line>, ys: seq<Line>)
    requires a.WellFormed()
    requires multiset(xs) == multiset(ys)
    ensures Fold(a, xs).None? <==> Fold(a, ys).None?
    ensures Fold(a, xs).Some? ==> Fold(a, xs).value.latest == Fold(a, ys).value.latest
  {
    forall l
      ensures l in xs <==> l in ys
    {
      assert l in xs <==> l in multiset(xs);
      assert l in ys <==> l in multiset(ys);
    }
    FoldDependsOnlyOnLineSet(a, xs, ys);
  }

  /** Feeding a line that was already processed changes nothing. */
  lemma FoldRefeedIdempotent(a: LastAuth, xs: seq<Line>, x: Line)
    requires a.WellFormed()
    requires x in xs
    ensures Fold(a, xs + [x]).None? <==> Fold(a, xs).None?
    ensures Fold(a, xs).Some? ==> Fold(a, xs + [x]).value.latest == Fold(a, xs).value.latest
  {
    FoldDependsOnlyOnLineSet(a, xs + [x], xs);
  }

  /** Folding a concatenation is folding the parts one after the other. */
  lemma {:induction false} FoldAppend(a: LastAuth, xs: seq<Line>, ys: seq<Line>)
    requires a.WellFormed()
    ensures Fold(a, xs + ys) ==
      match Fold(a, xs)
      case None => None
      case Some(b) => Fold(b, ys)
    decreases |xs|
  {
    if |xs| > 0 {
      assert (xs + ys)[1..] == xs[1..] + ys;
      match Step(a, xs[0])
      case None =>
      case Some(a') => FoldAppend(a', xs[1..], ys);
    } else {
      assert xs + ys == ys;
    }
  }

  /** Window by window processing is one fold over all lines of the
      successful responses, so failed windows only drop their own lines. */
  lemma {:induction false} RunFoldsAllLines(a: LastAuth, responses: seq<Response>)
    requires a.WellFormed()
    ensures RunFrom(a, responses) == Fold(a, AllLines(responses))
    decreases |responses|
  {
    if |responses| > 0 {
      var head := match responses[0] case Failed => [] case Body(lines) => lines;
      FoldAppend(a, head, AllLines(responses[1..]));
      match Fold(a, head)
      case None =>
      case Some(b) => RunFoldsAllLines(b, responses[1..]);
    }
  }

  /** The final map is the same however the lines are spread over windows and
      ordered within them: only the collection of lines counts. */
  lemma RunIndependentOfPartition(rs: seq<Response>, ss: seq<Response>)
    requires multiset(AllLines(rs)) == multiset(AllLines(ss))
    ensures Run(rs).None? <==> Run(ss).None?
    ensures Run(rs).Some? ==> Run(rs).value.latest == Run(ss).value.latest
  {
    RunFoldsAllLines(Empty, rs);
    RunFoldsAllLines(Empty, ss);
    FoldPermutationInvariant(Empty, AllLines(rs), AllLines(ss));
  }

  /** For a client with records at several instants, the stored value is the
      latest of them, whatever their order. */
  lemma RunKeepsLatest(responses: seq<Response>)
    ensures Run(responses).None? <==> exists l :: l in AllLines(responses) && Fatal(l)
    ensures Run(responses).Some? ==> IsLatest(map[], AllLines(responses), Run(responses).value.latest)
  {
    RunFoldsAllLines(Empty, responses);
    FoldAbortsOnFatal(Empty, AllLines(responses));
    FoldComputesLatest(Empty, AllLines(responses));
  }

  /** Every parsed timestamp among the lines is a constructible datetime, as
      the ISO 8601 parser guarantees of what it returns. */
  ghost predicate StampsValid(lines: seq<Line>) {
    forall l :: l in lines && l.Record? && l.stamp.Parsed? ==> l.stamp.at.Valid()
  }

  /** A completed run holds a well-formed map whose every instant is a
      constructible datetime, so its report can be rendered. */
  lemma RunIsReportable(responses: seq<Response>)
    requires StampsValid(AllLines(responses))
    ensures Run(responses).Some? ==>
      && Run(responses).value.WellFormed()
      && forall k :: k in Run(responses).value.latest ==> Run(responses).value.latest[k].Valid()
  {
    RunKeepsLatest(responses);
  }
}

=== FILE: calendar.dfy ===
/** Calendar arithmetic of Python's `datetime` as the script uses it: the
    proleptic Gregorian calendar, years 1 through 9999, instants counted in
    seconds from 0001-01-01T00:00:00 UTC, and the field-by-field comparison
    Python applies to two datetimes that share the UTC tzinfo. */
module Calendar {

  const MinYear := 1
  const MaxYear := 9999

  const SecondsPerDay := 86400

  /** A UTC wall-clock instant, field by field, as a `datetime` holds it. */
  datatype DateTime = DateTime(year: int, month: int, day: int,
                               hour: int, minute: int, second: int, micro: int)
  {
    /** The ranges the `datetime` constructor enforces (it raises otherwise). */
    predicate Valid() {
      && MinYear <= year <= MaxYear
      && 1 <= month <= 12
      && 1 <= day <= DaysInMonth(year, month)
      && 0 <= hour < 24
      && 0 <= minute < 60
      && 0 <= second < 60
      && 0 <= micro < 1000000
    }
  }

  predicate IsLeap(y: int) {
    y % 4 == 0 && (y % 100 != 0 || y % 400 == 0)
  }

  function DaysInMonth(y: int, m: int): (n: int)
    requires 1 <= m <= 12
    ensures 28 <= n <= 31
    ensures m == 2 ==> (n == 29 <==> IsLeap(y))
  {
    if m == 2 then (if IsLeap(y) then 29 else 28)
    else if m == 4 || m == 6 || m == 9 || m == 11 then 30
    else 31
  }

  /** Days of year `y` before the first of month `m`. */
  function DaysBeforeMonth(y: int, m: int): int
    requires 1 <= m <= 12
  {
    [0, 31, 59, 90, 120, 151, 181, 212, 243, 273, 304, 334][m - 1]
      + (if m > 2 && IsLeap(y) then 1 else 0)
  }

  /** Days before January 1 of year `y`, counted from January 1 of year 1. */
  function DaysBeforeYear(y: int): int {
    var p := y - 1;
    p * 365 + p / 4 - p / 100 + p / 400
  }

  /** Day number of a date; 0001-01-01 is day 1. */
  function Ordinal(y: int, m: int, d: int): int
    requires 1 <= m <= 12
  {
    DaysBeforeYear(y) + DaysBeforeMonth(y, m) + d
  }

  /** The instant of `t`, in whole seconds from 0001-01-01T00:00:00 UTC. */
  function Seconds(t: DateTime): int
    requires 1 <= t.month <= 12
  {
    (Ordinal(t.year, t.month, t.day) - 1) * SecondsPerDay
      + t.hour * 3600 + t.minute * 60 + t.second
  }

  /** Strictly earlier, compared field by field from the year down to the
      microsecond. */
  predicate Before(a: DateTime, b: DateTime) {
    if a.year != b.year then a.year < b.year
    else if a.month != b.month then a.month < b.month
    else if a.day != b.day then a.day < b.day
    else if a.hour != b.hour then a.hour < b.hour
    else if a.minute != b.minute then a.minute < b.minute
    else if a.second != b.second then a.second < b.second
    else a.micro < b.micro
  }

  /** `Before` is a strict total order: nothing is before itself, it chains,
      and of two distinct instants exactly one comes first. */
  lemma BeforeIsStrictTotalOrder()
    ensures forall a :: !Before(a, a)
    ensures forall a, b, c :: Before(a, b) && Before(b, c) ==> Before(a, c)
    ensures forall a, b :: a != b ==> (Before(a, b) <==> !Before(b, a))
  {
  }

  /** Not-before is transitive: the form the aggregator's maximum needs. */
  lemma NotBeforeChains(a: DateTime, b: DateTime, c: DateTime)
    requires !Before(a, b) && !Before(b, c)
    ensures !Before(a, c)
  {
    BeforeIsStrictTotalOrder();
  }

  /** Two instants neither of which is before the other are the same. */
  lemma NotBeforeAntisymmetric(a: DateTime, b: DateTime)
    requires !Before(a, b) && !Before(b, a)
    ensures a == b
  {
    BeforeIsStrictTotalOrder();
  }

  /** Floor quotients by 4, 100 and 400 step by one exactly at multiples. */
  lemma QuotientStep(p: int)
    ensures (p + 1) / 4 == p / 4 + (if (p + 1) % 4 == 0 then 1 else 0)
    ensures (p + 1) / 100 == p / 100 + (if (p + 1) % 100 == 0 then 1 else 0)
    ensures (p + 1) / 400 == p / 400 + (if (p + 1) % 400 == 0 then 1 else 0)
  {
  }

  /** Divisibility by 400 implies divisibility by 100, and by 100 implies by 4. */
  lemma DivisorChain(y: int)
    ensures y % 400 == 0 ==> y % 100 == 0
    ensures y % 100 == 0 ==> y % 4 == 0
  {
    if y % 400 == 0 {
      var j := 4 * (y / 400);
      assert y == 100 * j;
    }
    if y % 100 == 0 {
      var j := 25 * (y / 100);
      assert y == 4 * j;
    }
  }

  /** A year has 366 days when it is a leap year and 365 otherwise. */
  lemma YearLength(y: int)
    ensures DaysBeforeYear(y + 1) == DaysBeforeYear(y) + (if IsLeap(y) then 366 else 365)
  {
    var p := y - 1;
    QuotientStep(p);
    DivisorChain(y);
  }

  /** The first day of the month after (`y`, `m`) directly follows the last day
      of (`y`, `m`). */
  lemma MonthLength(y: int, m: int)
    requires 1 <= m <= 12
    ensures m < 12 ==> Ordinal(y, m + 1, 1) == Ordinal(y, m, DaysInMonth(y, m)) + 1
    ensures m == 12 ==> Ordinal(y + 1, 1, 1) == Ordinal(y, 12, 31) + 1
  {
    if m == 12 {
      YearLength(y);
    }
  }
}

=== FILE: csv.dfy ===
/** The CSV report: a fixed header and one row per client, holding the client
    id, the last authentication instant in ISO 8601 form, and the roll-off
    month one year after it. */
module Csv {
  import opened Calendar
  import opened Decimal
  import opened Optional
  import opened Aggregator

  const Header := "client_id,last_auth_timestamp,roll_off_month"

  /** Reads `YYYY-MM` back: the digits before the last three characters, a
      dash, and two digits. */
  function ParseYearMonth(s: string): Option<(int, int)> {
    if |s| >= 4 && s[|s| - 3] == '-' && AllDigits(s[..|s| - 3]) && AllDigits(s[|s| - 2..])
    then Some((Value(s[..|s| - 3]), Value(s[|s| - 2..])))
    else None
  }

  /** The roll-off month: the year after the last authentication, unpadded,
      a dash, and the same month as two digits. */
  function RollOffMonth(t: DateTime): string
    requires t.Valid()
  {
    Digits(t.year + 1) + "-" + Padded(t.month, 2)
  }

  /** The roll-off month reads back as the following year and the same
      month; the year carries no leading zero and the month exactly two
      digits. */
  lemma RollOffRoundTrip(t: DateTime)
    requires t.Valid()
    ensures var s := RollOffMonth(t);
      && ParseYearMonth(s) == Some((t.year + 1, t.month))
      && s[0] != '0' && |s| == |Digits(t.year + 1)| + 3
  {
    PaddedWidth(t.month, 2);
    PaddedRoundTrip(t.month, 2);
    DigitsRoundTrip(t.year + 1);
    var y := Digits(t.year + 1);
    var m := Padded(t.month, 2);
    var s := y + "-" + m;
    assert s[..|s| - 3] == y && s[|s| - 2..] == m;
  }

  /** `n` as exactly `w` digits; `n` must fit in them. */
  function Fixed(n: nat, w: nat): (s: string)
    requires 1 <= w && n < Pow10(w)
    ensures |s| == w
  {
    PaddedWidth(n, w);
    Padded(n, w)
  }

  /** A fixed-width rendering is all digits and reads back as its number. */
  lemma FixedReadsBack(n: nat, w: nat)
    requires 1 <= w && n < Pow10(w)
    ensures AllDigits(Fixed(n, w)) && Value(Fixed(n, w)) == n
  {
    PaddedRoundTrip(n, w);
  }

  /** Three pieces joined by a separator sit at fixed offsets. */
  lemma Joined3(x: string, y: string, z: string, c: char)
    ensures var s := x + [c] + y + [c] + z;
      && s[..|x|] == x && s[|x|] == c
      && s[|x| + 1..|x| + 1 + |y|] == y && s[|x| + 1 + |y|] == c
      && s[|x| + |y| + 2..] == z
  {
  }

  /** `YYYY-MM-DD`. */
  function DateText(t: DateTime): (s: string)
    requires t.Valid()
    ensures |s| == 10
  {
    Fixed(t.year, 4) + ['-'] + Fixed(t.month, 2) + ['-'] + Fixed(t.day, 2)
  }

  /** `HH:MM:SS`. */
  function TimeText(t: DateTime): (s: string)
    requires t.Valid()
    ensures |s| == 8
  {
    Fixed(t.hour, 2) + [':'] + Fixed(t.minute, 2) + [':'] + Fixed(t.second, 2)
  }

  /** The fraction: empty for whole seconds, otherwise `.ffffff`. */
  function FractionText(t: DateTime): (s: string)
    requires t.Valid()
    ensures |s| == if t.micro == 0 then 0 else 7
  {
    if t.micro == 0 then "" else ['.'] + Fixed(t.micro, 6)
  }

  /** The text of `t` as `isoformat()` renders a UTC datetime once the
      `+00:00` suffix is replaced by `Z`. */
  function Iso(t: DateTime): (s: string)
    requires t.Valid()
    ensures |s| == if t.micro == 0 then 20 else 27
  {
    DateText(t) + ['T'] + TimeText(t) + FractionText(t) + ['Z']
  }

  /** The date reads back field by field: four digits of year, a dash, two
      of month, a dash, two of day. */
  lemma DateReadsBack(t: DateTime)
    requires t.Valid()
    ensures var s := DateText(t);
      && s[4] == '-' && s[7] == '-'
      && AllDigits(s[..4]) && Value(s[..4]) == t.year
      && AllDigits(s[5..7]) && Value(s[5..7]) == t.month
      && AllDigits(s[8..]) && Value(s[8..]) == t.day
  {
    FixedReadsBack(t.year, 4);
    FixedReadsBack(t.month, 2);
    FixedReadsBack(t.day, 2);
    Joined3(Fixed(t.year, 4), Fixed(t.month, 2), Fixed(t.day, 2), '-');
  }

  /** The time of day reads back field by field: two digits each of hour,
      minute and second, separated by colons. */
  lemma TimeReadsBack(t: DateTime)
    requires t.Valid()
    ensures var s := TimeText(t);
      && s[2] == ':' && s[5] == ':'
      && AllDigits(s[..2]) && Value(s[..2]) == t.hour
      && AllDigits(s[3..5]) && Value(s[3..5]) == t.minute
      && AllDigits(s[6..]) && Value(s[6..]) == t.second
  {
    FixedReadsBack(t.hour, 2);
    FixedReadsBack(t.minute, 2);
    FixedReadsBack(t.second, 2);
    Joined3(Fixed(t.hour, 2), Fixed(t.minute, 2), Fixed(t.second, 2), ':');
  }

  /** The fraction is absent for whole seconds and otherwise a dot and six
      digits reading back as the microseconds. */
  lemma FractionReadsBack(t: DateTime)
    requires t.Valid()
    ensures var s := FractionText(t);
      && (t.micro == 0 <==> s == "")
      && (t.micro != 0 ==> s[0] == '.' && AllDigits(s[1..]) && Value(s[1..]) == t.micro)
  {
    if t.micro != 0 {
      FixedReadsBack(t.micro, 6);
      assert FractionText(t)[1..] == Fixed(t.micro, 6);
    }
  }

  /** The layout of `Iso`: the date, `T`, the time of day, the fraction, and
      the `Z` designator, at fixed offsets. */
  lemma IsoLayout(t: DateTime)
    requires t.Valid()
    ensures var s := Iso(t);
      && s[..10] == DateText(t) && s[10] == 'T' && s[11..19] == TimeText(t)
      && s[19..|s| - 1] == FractionText(t) && s[|s| - 1] == 'Z'
  {
    var date := DateText(t);
    var time := TimeText(t);
    var frac := FractionText(t);
    var s := date + ['T'] + time + frac + ['Z'];
    assert s[..10] == date;
    assert s[11..19] == time;
    assert s[19..|s| - 1] == frac;
  }

  /** Splits a CSV line at every comma. */
  function Fields(s: string): (fs: seq<string>)
    ensures |fs| >= 1
    ensures forall i :: 0 <= i < |fs| ==> ',' !in fs[i]
  {
    if ',' !in s then [s]
    else
      var i := FirstComma(s);
      [s[..i]] + Fields(s[i + 1..])
  }

  function FirstComma(s: string): (i: nat)
    requires ',' in s
    ensures i < |s| && s[i] == ',' && ',' !in s[..i]
  {
    if s[0] == ',' then 0
    else
      assert ',' in s[1..];
      var j := FirstComma(s[1..]);
      assert s[1..][..j] == s[1..j + 1];
      1 + j
  }

  /** Joins fields with commas: the inverse of `Fields`. */
  function Join(fs: seq<string>): (s: string)
    requires |fs| >= 1
    decreases |fs|
  {
    if |fs| == 1 then fs[0] else fs[0] + "," + Join(fs[1..])
  }

  /** Splitting at commas loses nothing: joining the fields gives the line
      back. So two lines with the same fields are the same line. */
  lemma {:induction false} JoinFields(s: string)
    ensures Join(Fields(s)) == s
    decreases |s|
  {
    if ',' in s {
      var i := FirstComma(s);
      var rest := s[i + 1..];
      JoinFields(rest);
      assert Fields(s) == [s[..i]] + Fields(rest);
      assert s == s[..i] + "," + rest;
    }
  }

  /** Reading back fields joined by commas gives the fields, when none of
      them holds a comma. */
  lemma FieldsOfJoin(a: string, rest: string)
    requires ',' !in a
    ensures Fields(a + "," + rest) == [a] + Fields(rest)
  {
    var s := a + "," + rest;
    assert s[|a|] == ',';
    var i := FirstComma(s);
    assert i == |a|;
    assert s[..i] == a;
    assert s[i + 1..] == rest;
  }

  /** One report row: id, last authentication and roll-off month,
      comma-separated. */
  function Row(id: string, t: DateTime): string
    requires t.Valid()
  {
    id + "," + (Iso(t) + "," + RollOffMonth(t))
  }

  lemma DigitsHaveNoComma(s: string)
    requires AllDigits(s)
    ensures ',' !in s
  {
  }

  /** Two digit-runs joined around a non-comma separator hold no comma. */
  lemma JoinedHasNoComma(x: string, y: string, z: string, c: char)
    requires AllDigits(x) && AllDigits(y) && AllDigits(z) && c != ','
    ensures ',' !in x + [c] + y + [c] + z
  {
    DigitsHaveNoComma(x);
    DigitsHaveNoComma(y);
    DigitsHaveNoComma(z);
  }

  lemma DateHasNoComma(t: DateTime)
    requires t.Valid()
    ensures ',' !in DateText(t)
  {
    FixedReadsBack(t.year, 4);
    FixedReadsBack(t.month, 2);
    FixedReadsBack(t.day, 2);
    JoinedHasNoComma(Fixed(t.year, 4), Fixed(t.month, 2), Fixed(t.day, 2), '-');
  }

  lemma TimeHasNoComma(t: DateTime)
    requires t.Valid()
    ensures ',' !in TimeText(t)
  {
    FixedReadsBack(t.hour, 2);
    FixedReadsBack(t.minute, 2);
    FixedReadsBack(t.second, 2);
    JoinedHasNoComma(Fixed(t.hour, 2), Fixed(t.minute, 2), Fixed(t.second, 2), ':');
  }

  lemma FractionHasNoComma(t: DateTime)
    requires t.Valid()
    ensures ',' !in FractionText(t)
  {
    if t.micro != 0 {
      FixedReadsBack(t.micro, 6);
      DigitsHaveNoComma(Fixed(t.micro, 6));
    }
  }

  /** Neither rendered field holds a comma. */
  lemma RenderedFieldsHaveNoComma(t: DateTime)
    requires t.Valid()
    ensures ',' !in Iso(t) && ',' !in RollOffMonth(t)
  {
    DateHasNoComma(t);
    TimeHasNoComma(t);
    FractionHasNoComma(t);
    DigitsHaveNoComma(Digits(t.year + 1));
    PaddedRoundTrip(t.month, 2);
    DigitsHaveNoComma(Padded(t.month, 2));
  }

  /** Three comma-free fields joined by commas read back as themselves. */
  lemma ThreeFields(x: string, y: string, z: string)
    requires ',' !in x && ',' !in y && ',' !in z
    ensures Fields(x + "," + (y + "," + z)) == [x, y, z]
  {
    FieldsOfJoin(y, z);
    FieldsOfJoin(x, y + "," + z);
  }

  /** A row read back as CSV gives the id, the timestamp text and the
      roll-off month, provided the id holds no comma. */
  lemma RowFields(id: string, t: DateTime)
    requires t.Valid() && ',' !in id
    ensures Fields(Row(id, t)) == [id, Iso(t), RollOffMonth(t)]
  {
    RenderedFieldsHaveNoComma(t);
    ThreeFields(id, Iso(t), RollOffMonth(t));
  }

  /** A duplicate-free sequence has as many distinct elements as entries. */
  lemma {:induction false} DistinctCount(s: seq<string>)
    requires forall i, j :: 0 <= i < j < |s| ==> s[i] != s[j]
    ensures |set x | x in s| == |s|
  {
    if |s| > 0 {
      var p := s[..|s| - 1];
      DistinctCount(p);
      assert (set x | x in s) == (set x | x in p) + {s[|s| - 1]};
    }
  }

  /** The insertion order is as long as the map is large. */
  lemma OrderListsEveryKeyOnce(a: LastAuth)
    requires a.WellFormed()
    ensures |a.order| == |a.latest|
  {
    DistinctCount(a.order);
    assert a.latest.Keys == set x | x in a.order;
  }

  /** Renders one row per listed client, in order. */
  function Rows(keys: seq<string>, m: map<string, DateTime>): (rows: seq<string>)
    requires forall i :: 0 <= i < |keys| ==> keys[i] in m && m[keys[i]].Valid()
    ensures |rows| == |keys|
    ensures forall i :: 0 <= i < |keys| ==> rows[i] == Row(keys[i], m[keys[i]])
  {
    if |keys| == 0 then [] else [Row(keys[0], m[keys[0]])] + Rows(keys[1..], m)
  }

  /** The report: the header, then one row per client in the map's insertion
      order, as many rows as the map has clients. */
  function Report(a: LastAuth): (lines: seq<string>)
    requires a.WellFormed()
    requires forall k :: k in a.latest ==> a.latest[k].Valid()
    ensures |lines| == |a.latest| + 1 && |lines| == |a.order| + 1 && lines[0] == Header
    ensures forall i :: 0 <= i < |a.order| ==> lines[i + 1] == Row(a.order[i], a.latest[a.order[i]])
  {
    OrderListsEveryKeyOnce(a);
    RowsAfterHeader(a.order, a.latest);
    [Header] + Rows(a.order, a.latest)
  }

  lemma RowsAfterHeader(keys: seq<string>, m: map<string, DateTime>)
    requires forall i :: 0 <= i < |keys| ==> keys[i] in m && m[keys[i]].Valid()
    ensures forall i :: 0 <= i < |keys| ==>
      ([Header] + Rows(keys, m))[i + 1] == Row(keys[i], m[keys[i]])
  {
    AfterHeader(Rows(keys, m));
  }

  /** Prefixing the header shifts every line down by one. */
  lemma AfterHeader(rows: seq<string>)
    ensures forall i :: 0 <= i < |rows| ==> ([Header] + rows)[i + 1] == rows[i]
  {
  }

  /** Position of `k` in a sequence that holds it. */
  function IndexOf(s: seq<string>, k: string): (i: nat)
    requires k in s
    ensures i < |s| && s[i] == k
  {
    if s[0] == k then 0 else 1 + IndexOf(s[1..], k)
  }

  /** Each client of the map has its row in the report, at its position in
      the insertion order, after the header. */
  lemma ReportHasClientRow(a: LastAuth, k: string)
    requires a.WellFormed()
    requires forall k :: k in a.latest ==> a.latest[k].Valid()
    requires k in a.latest
    ensures var i := IndexOf(a.order, k) + 1;
      i < |Report(a)| && Report(a)[i] == Row(k, a.latest[k])
  {
    ReportRowAt(a, IndexOf(a.order, k));
  }

  /** The line after the header at position `j` is the row of the `j`-th
      client in insertion order. */
  lemma ReportRowAt(a: LastAuth, j: nat)
    requires a.WellFormed()
    requires forall k :: k in a.latest ==> a.latest[k].Valid()
    requires j < |a.order|
    ensures j + 1 < |Report(a)| && Report(a)[j + 1] == Row(a.order[j], a.latest[a.order[j]])
  {
  }

  /** What the script writes, from the windows' responses: nothing when the
      run aborts, otherwise the header and one row per client in first-seen
      order, each with that client's latest instant. */
  function Output(responses: seq<Response>): (out: Option<seq<string>>)
    requires StampsValid(AllLines(responses))
    ensures out.None? <==> AnyFatal(responses)
    ensures out.Some? ==>
      var a := Run(responses).value;
      && a.WellFormed() && (forall k :: k in a.latest ==> a.latest[k].Valid())
      && |out.value| == |a.latest| + 1 && |out.value| == |a.order| + 1 && out.value[0] == Header
      && forall i :: 0 <= i < |a.order| ==>
        a.order[i] in a.latest && out.value[i + 1] == Row(a.order[i], a.latest[a.order[i]])
  {
    RunIsReportable(responses);
    var r := Run(responses);
    if r.None? then None
    else
      var a := r.value;
      assert forall i :: 0 <= i < |a.order| ==> a.order[i] in a.order;
      Some(Report(a))
  }
}

=== FILE: decimal.dfy ===
/** Decimal rendering of non-negative integers, as Python's `str(n)` and
    `'%0Nd' % n` produce it, and the digit-string reader that inverts it. */
module Decimal {

  predicate IsDigit(c: char) {
    '0' <= c <= '9'
  }

  predicate AllDigits(s: string) {
    forall i :: 0 <= i < |s| ==> IsDigit(s[i])
  }

  function DigitChar(d: int): (c: char)
    requires 0 <= d < 10
    ensures IsDigit(c) && c as int - '0' as int == d
  {
    (d + '0' as int) as char
  }

  /** The number a digit string denotes, most significant digit first. */
  function Value(s: string): nat
    requires AllDigits(s)
  {
    if |s| == 0 then 0
    else Value(s[..|s| - 1]) * 10 + (s[|s| - 1] as int - '0' as int)
  }

  function Pow10(w: nat): (p: nat)
    ensures p >= 1
  {
    if w == 0 then 1 else 10 * Pow10(w - 1)
  }

  /** The shortest decimal rendering of `n`: no leading zero. */
  function Digits(n: nat): (s: string)
    ensures AllDigits(s) && |s| >= 1
    ensures |s| > 1 ==> s[0] != '0'
  {
    if n < 10 then [DigitChar(n)] else Digits(n / 10) + [DigitChar(n % 10)]
  }

  /** Reading back the rendering of `n` gives `n`. */
  lemma {:induction false} DigitsRoundTrip(n: nat)
    ensures Value(Digits(n)) == n
  {
    if n >= 10 {
      var s := Digits(n);
      assert s[..|s| - 1] == Digits(n / 10);
      DigitsRoundTrip(n / 10);
    }
  }

  /** `n` needs at most `w` digits exactly when it is below 10 to the `w`. */
  lemma {:induction false} DigitsLength(n: nat, w: nat)
    requires w >= 1
    ensures |Digits(n)| <= w <==> n < Pow10(w)
  {
    if n >= 10 && w > 1 {
      DigitsLength(n / 10, w - 1);
    }
  }

  function Zeros(k: nat): (z: string)
    ensures |z| == k && AllDigits(z)
    ensures forall i :: 0 <= i < k ==> z[i] == '0'
  {
    if k == 0 then [] else Zeros(k - 1) + ['0']
  }

  /** Leading zeros do not change the value of a digit string. */
  lemma {:induction false} LeadingZeros(k: nat, s: string)
    requires AllDigits(s)
    ensures Value(Zeros(k) + s) == Value(s)
  {
    if |s| == 0 {
      assert Zeros(k) + s == Zeros(k);
      ZerosValue(k);
    } else {
      var t := Zeros(k) + s;
      assert t[..|t| - 1] == Zeros(k) + s[..|s| - 1];
      LeadingZeros(k, s[..|s| - 1]);
    }
  }

  lemma {:induction false} ZerosValue(k: nat)
    ensures Value(Zeros(k)) == 0
  {
    if k > 0 {
      assert Zeros(k)[..k - 1] == Zeros(k - 1);
      ZerosValue(k - 1);
    }
  }

  /** `n` zero-padded on the left to at least `w` digits (`%0wd`). */
  function Padded(n: nat, w: nat): (s: string)
    ensures |s| == if |Digits(n)| < w then w else |Digits(n)|
  {
    var d := Digits(n);
    Zeros(if |d| < w then w - |d| else 0) + d
  }

  /** A padded rendering reads back as the number it renders. */
  lemma PaddedRoundTrip(n: nat, w: nat)
    ensures AllDigits(Padded(n, w)) && Value(Padded(n, w)) == n
  {
    var d := Digits(n);
    DigitsRoundTrip(n);
    LeadingZeros(if |d| < w then w - |d| else 0, d);
  }

  /** Padding to a width the number fits in gives exactly that width. */
  lemma PaddedWidth(n: nat, w: nat)
    requires 1 <= w && n < Pow10(w)
    ensures |Padded(n, w)| == w
  {
    DigitsLength(n, w);
  }
}

=== FILE: optional.dfy ===
/** The optional value used for the script's failure paths: a step that would
    raise (and so end the run) yields None. */
module Optional {

  datatype Option<+T> = None | Some(value: T)

}

=== FILE: scenarios.dfy ===
/** Worked cases from the script's documented behaviour, stated as lemmas
    over the model. */
module Scenarios {
  import opened Calendar
  import opened Decimal
  import opened Optional
  import opened Aggregator
  import opened Csv

  /** A mid-year last authentication rolls off in the same month a year on. */
  lemma RollOffMidYear()
    ensures RollOffMonth(DateTime(2024, 7, 3, 15, 48, 13, 0)) == "2025-07"
  {
    assert Digits(2) == "2";
    assert Digits(20) == "20";
    assert Digits(202) == "202";
    assert Digits(2025) == "2025";
    assert Digits(7) == "7";
    assert Padded(7, 2) == "07";
  }

  /** A December last authentication rolls off in December of the next year. */
  lemma RollOffDecember()
    ensures RollOffMonth(DateTime(2023, 12, 1, 0, 0, 0, 0)) == "2024-12"
  {
    assert Digits(2) == "2";
    assert Digits(20) == "20";
    assert Digits(202) == "202";
    assert Digits(2024) == "2024";
    assert Digits(1) == "1";
    assert Digits(12) == "12";
    assert Padded(12, 2) == "12";
  }

  const Jan5 := DateTime(2024, 1, 5, 0, 0, 0, 0)
  const Feb1 := DateTime(2024, 2, 1, 0, 0, 0, 0)
  const Mar10 := DateTime(2024, 3, 10, 0, 0, 0, 0)

  /** Two windows' bodies: `c1` once in the first, `c1` again later and `c2`
      once in the second. */
  const FirstBody := Body([Record("c1", Parsed(Jan5))])
  const SecondBody := Body([Record("c1", Parsed(Mar10)), Record("c2", Parsed(Feb1))])
  const TwoWindows := [FirstBody, SecondBody]

  const AfterFirst := LastAuth(["c1"], map["c1" := Jan5])
  const AfterSecond := LastAuth(["c1", "c2"], map["c1" := Mar10, "c2" := Feb1])

  lemma FirstWindow()
    ensures Fold(Empty, TwoWindows[0].lines) == Some(AfterFirst)
  {
    assert Update(Empty, "c1", Jan5) == AfterFirst;
  }

  lemma SecondWindow()
    ensures Fold(AfterFirst, TwoWindows[1].lines) == Some(AfterSecond)
  {
    var mid := LastAuth(["c1"], map["c1" := Mar10]);
    assert Before(Jan5, Mar10);
    assert Update(AfterFirst, "c1", Mar10) == mid;
    assert Update(mid, "c2", Feb1) == AfterSecond;
    assert Fold(mid, TwoWindows[1].lines[1..]) == Some(AfterSecond) by {
      assert TwoWindows[1].lines[1..][1..] == [];
    }
  }

  /** The later of `c1`'s two instants wins; `c2` keeps its only one; the
      clients appear in first-seen order. */
  lemma TwoWindowsAggregate()
    ensures Run(TwoWindows) == Some(AfterSecond)
  {
    FirstWindow();
    SecondRun();
    assert TwoWindows[1..] == [SecondBody];
  }

  lemma SecondRun()
    ensures RunFrom(AfterFirst, [SecondBody]) == Some(AfterSecond)
  {
    SecondWindow();
    assert [SecondBody][1..] == [];
  }

  lemma YearText()
    ensures Fixed(2024, 4) == "2024" && Digits(2025) == "2025"
  {
    assert Digits(2) == "2";
    assert Digits(20) == "20";
    assert Digits(202) == "202";
    assert Digits(2024) == "2024";
    assert Digits(2025) == "2025";
  }

  lemma PairText()
    ensures Fixed(0, 2) == "00" && Fixed(1, 2) == "01" && Fixed(2, 2) == "02"
    ensures Fixed(3, 2) == "03" && Fixed(10, 2) == "10"
    ensures Padded(2, 2) == "02" && Padded(3, 2) == "03"
  {
    assert Digits(1) == "1";
    assert Digits(10) == "10";
  }

  lemma DateTexts()
    ensures DateText(Mar10) == "2024-03-10" && DateText(Feb1) == "2024-02-01"
  {
    YearText();
    PairText();
  }

  lemma TimeTexts()
    ensures TimeText(Mar10) == "00:00:00" && TimeText(Feb1) == "00:00:00"
  {
    PairText();
  }

  lemma IsoTexts()
    ensures Iso(Mar10) == "2024-03-10T00:00:00Z" && Iso(Feb1) == "2024-02-01T00:00:00Z"
  {
    DateTexts();
    TimeTexts();
  }

  lemma RollOffTexts()
    ensures RollOffMonth(Mar10) == "2025-03" && RollOffMonth(Feb1) == "2025-02"
  {
    YearText();
    PairText();
  }

  lemma AfterSecondRenderable()
    ensures AfterSecond.WellFormed()
    ensures forall k :: k in AfterSecond.latest ==> AfterSecond.latest[k].Valid()
  {
    assert Mar10.Valid() && Feb1.Valid();
  }

  /** The first client's rendered fields, comma-joined, spell its expected
      row text. Each row's spelling has a lemma of its own: comparing two
      long literals in one proof is far costlier than comparing each alone. */
  lemma RowSpellingC1()
    ensures "c1" + "," + ("2024-03-10T00:00:00Z" + "," + "2025-03") == "c1,2024-03-10T00:00:00Z,2025-03"
  {
  }

  /** The second client's rendered fields spell its expected row text. */
  lemma RowSpellingC2()
    ensures "c2" + "," + ("2024-02-01T00:00:00Z" + "," + "2025-02") == "c2,2024-02-01T00:00:00Z,2025-02"
  {
  }

  /** Each client's row is the expected CSV text. */
  lemma RowLiterals()
    ensures Row("c1", Mar10) == "c1,2024-03-10T00:00:00Z,2025-03"
    ensures Row("c2", Feb1) == "c2,2024-02-01T00:00:00Z,2025-02"
  {
    IsoTexts();
    RollOffTexts();
    RowSpellingC1();
    RowSpellingC2();
  }

  /** The report for the two-window case: the header and one row per
      client, as literal CSV text. */
  lemma TwoWindowsReport()
    ensures AfterSecond.WellFormed()
    ensures forall k :: k in AfterSecond.latest ==> AfterSecond.latest[k].Valid()
    ensures var lines := Report(AfterSecond);
      && |lines| == 3
      && lines[0] == "client_id,last_auth_timestamp,roll_off_month"
      && lines[1] == "c1,2024-03-10T00:00:00Z,2025-03"
      && lines[2] == "c2,2024-02-01T00:00:00Z,2025-02"
  {
    AfterSecondRenderable();
    RowLiterals();
    var lines := Report(AfterSecond);
    assert lines[1] == Row(AfterSecond.order[0], AfterSecond.latest[AfterSecond.order[0]]);
    assert lines[2] == Row(AfterSecond.order[1], AfterSecond.latest[AfterSecond.order[1]]);
  }

  /** The same report, as one list of lines. */
  lemma TwoWindowsReportLines()
    ensures AfterSecond.WellFormed()
    ensures forall k :: k in AfterSecond.latest ==> AfterSecond.latest[k].Valid()
    ensures Report(AfterSecond) == [
      "client_id,last_auth_timestamp,roll_off_month",
      "c1,2024-03-10T00:00:00Z,2025-03",
      "c2,2024-02-01T00:00:00Z,2025-02"
    ]
  {
    TwoWindowsReport();
    ThreeElements(Report(AfterSecond));
  }

  /** A sequence of length three is the display of its elements. */
  lemma ThreeElements<T>(s: seq<T>)
    requires |s| == 3
    ensures s == [s[0], s[1], s[2]]
  {
  }

  /** The whole script on the two-window case: every parsed stamp is a valid
      datetime, and the output is the header and the two literal rows. */
  lemma TwoWindowsOutput()
    ensures StampsValid(AllLines(TwoWindows))
    ensures Output(TwoWindows) == Some([
      "client_id,last_auth_timestamp,roll_off_month",
      "c1,2024-03-10T00:00:00Z,2025-03",
      "c2,2024-02-01T00:00:00Z,2025-02"
    ])
  {
    TwoWindowsStampsValid();
    TwoWindowsAggregate();
    TwoWindowsReportLines();
  }

  lemma TwoWindowsStampsValid()
    ensures StampsValid(AllLines(TwoWindows))
  {
    assert TwoWindows[1..] == [SecondBody] && [SecondBody][1..] == [];
    assert AllLines([SecondBody]) == SecondBody.lines + AllLines([]);
    assert AllLines(TwoWindows) == FirstBody.lines + SecondBody.lines;
    assert Jan5.Valid() && Mar10.Valid() && Feb1.Valid();
  }
}

=== FILE: windows.dfy ===
/** The reporting range: a walk twelve months back from the current month,
    then twelve contiguous calendar-month windows walked forward from there. */
module Windows {
  import opened Calendar
  import opened Optional

  /** A calendar month, the (year, month) pair the script steps through. */
  datatype YearMonth = YearMonth(year: int, month: int)
  {
    predicate Valid() {
      1 <= month <= 12
    }

    /** Months elapsed since January of year 0. */
    function Index(): int {
      year * 12 + month - 1
    }
  }

  /** The month a given number of months after January of year 0. */
  function FromIndex(k: int): (ym: YearMonth)
    ensures ym.Valid() && ym.Index() == k
  {
    YearMonth(k / 12, k % 12 + 1)
  }

  /** A valid month is determined by its index. */
  lemma IndexDetermines(a: YearMonth, b: YearMonth)
    requires a.Valid() && b.Valid() && a.Index() == b.Index()
    ensures a == b
  {
  }

  /** `FromIndex` and `Index` are inverse to each other on valid months. */
  lemma IndexRoundTrip(ym: YearMonth, k: int)
    ensures FromIndex(k).Index() == k
    ensures ym.Valid() ==> FromIndex(ym.Index()) == ym
  {
    if ym.Valid() {
      IndexDetermines(FromIndex(ym.Index()), ym);
    }
  }

  /** One step of the backward walk: the month before. */
  function PrevMonth(ym: YearMonth): (r: YearMonth)
    requires ym.Valid()
    ensures r.Valid() && r.Index() == ym.Index() - 1
  {
    if ym.month - 1 == 0 then YearMonth(ym.year - 1, 12)
    else YearMonth(ym.year, ym.month - 1)
  }

  /** One step of the forward walk: the month after. */
  function NextMonth(ym: YearMonth): (r: YearMonth)
    requires ym.Valid()
    ensures r.Valid() && r.Index() == ym.Index() + 1
  {
    if ym.month + 1 == 13 then YearMonth(ym.year + 1, 1)
    else YearMonth(ym.year, ym.month + 1)
  }

  /** The two steps undo each other. */
  lemma PrevNextInverse(ym: YearMonth)
    requires ym.Valid()
    ensures NextMonth(PrevMonth(ym)) == ym
    ensures PrevMonth(NextMonth(ym)) == ym
  {
    IndexDetermines(NextMonth(PrevMonth(ym)), ym);
    IndexDetermines(PrevMonth(NextMonth(ym)), ym);
  }

  /** The year changes exactly at the January/December boundary, in both
      directions, and otherwise only the month moves by one. */
  lemma Rollover(ym: YearMonth)
    requires ym.Valid()
    ensures ym.month == 1 <==> PrevMonth(ym) == YearMonth(ym.year - 1, 12)
    ensures ym.month != 1 <==> PrevMonth(ym) == YearMonth(ym.year, ym.month - 1)
    ensures ym.month == 12 <==> NextMonth(ym) == YearMonth(ym.year + 1, 1)
    ensures ym.month != 12 <==> NextMonth(ym) == YearMonth(ym.year, ym.month + 1)
  {
    if ym.month == 1 {
      IndexDetermines(PrevMonth(ym), YearMonth(ym.year - 1, 12));
    } else {
      IndexDetermines(PrevMonth(ym), YearMonth(ym.year, ym.month - 1));
    }
    if ym.month == 12 {
      IndexDetermines(NextMonth(ym), YearMonth(ym.year + 1, 1));
    } else {
      IndexDetermines(NextMonth(ym), YearMonth(ym.year, ym.month + 1));
    }
  }

  /** The backward walk of the script: twelve single-month steps back from the
      current month, with the year decremented whenever the month runs out. */
  method StartOfRange(current: YearMonth) returns (start: YearMonth)
    requires current.Valid()
    ensures start.Valid() && start.Index() == current.Index() - 12
    ensures start == YearMonth(current.year - 1, current.month)
  {
    var year := current.year;
    var month := current.month;
    var i := 0;
    while i < 12
      invariant 0 <= i <= 12
      invariant 1 <= month <= 12
      invariant year * 12 + month - 1 == current.Index() - i
    {
      month := month - 1;
      if month == 0 {
        month := 12;
        year := year - 1;
      }
      i := i + 1;
    }
    start := YearMonth(year, month);
    IndexDetermines(start, YearMonth(current.year - 1, current.month));
  }

  /** Midnight at the start of day 1 of a month. */
  function FirstInstant(ym: YearMonth): (t: DateTime)
    ensures t.month == ym.month
  {
    DateTime(ym.year, ym.month, 1, 0, 0, 0, 0)
  }

  /** One monthly query window. */
  datatype Window = Window(month: YearMonth)
  {
    /** Midnight on day 1 of the window's month: no instant of that month
        comes before it. */
    function Start(): (t: DateTime)
      ensures t == FirstInstant(month) && t.month == month.month
      ensures forall u: DateTime :: u.Valid() && u.year == month.year && u.month == month.month ==>
        !Before(u, t)
    {
      FirstInstant(month)
    }

    /** The start of the following month, where the next window begins:
        exactly as many days after `Start()` as the month has. */
    function Next(): (n: DateTime)
      requires month.Valid()
      ensures n == FirstInstant(NextMonth(month))
      ensures Seconds(n) == Seconds(Start()) + DaysInMonth(month.year, month.month) * SecondsPerDay
    {
      MonthLength(month.year, month.month);
      FirstInstant(NextMonth(month))
    }

    /** The last second of the month: 23:59:59 with no fraction on its last
        day, one second before `Next()`. */
    function End(): (e: DateTime)
      requires month.Valid()
      ensures e.year == month.year && e.month == month.month
      ensures e.day == DaysInMonth(month.year, month.month)
      ensures e.hour == 23 && e.minute == 59 && e.second == 59 && e.micro == 0
      ensures Seconds(e) + 1 == Seconds(Next())
      ensures Seconds(Start()) < Seconds(e)
      ensures MinYear <= month.year <= MaxYear ==> e.Valid()
    {
      MonthLength(month.year, month.month);
      DateTime(month.year, month.month, DaysInMonth(month.year, month.month), 23, 59, 59, 0)
    }

    /** Instant `t` (in seconds) falls inside this window, bounds included. */
    predicate Contains(t: int)
      requires month.Valid()
    {
      Seconds(Start()) <= t <= Seconds(End())
    }
  }

  /** A window whose month and following month both lie in years 1 through
      9999 has constructible start, next-month start and end. */
  lemma WindowInstantsValid(w: Window)
    requires w.month.Valid()
    requires MinYear <= w.month.year && NextMonth(w.month).year <= MaxYear
    ensures w.Start().Valid() && w.Next().Valid() && w.End().Valid()
  {
  }

  /** Every window's successor is the window of the following month. */
  predicate Contiguous(ws: seq<Window>) {
    && (forall i :: 0 <= i < |ws| ==> ws[i].month.Valid())
    && (forall i :: 0 <= i < |ws| - 1 ==> ws[i + 1].month == NextMonth(ws[i].month))
  }

  /** The window loop of the script: twelve windows from `start`, each
      beginning at the previous one's next-month start. */
  method WalkForward(start: YearMonth) returns (ws: seq<Window>)
    requires start.Valid()
    ensures |ws| == 12 && Contiguous(ws) && ws[0].month == start
    ensures forall i :: 0 <= i < 12 ==> ws[i].month.Index() == start.Index() + i
    ensures NextMonth(ws[11].month).Index() == start.Index() + 12
  {
    ws := [];
    var month := start;
    var i := 0;
    while i < 12
      invariant 0 <= i <= 12
      invariant |ws| == i
      invariant month.Valid() && month.Index() == start.Index() + i
      invariant forall j :: 0 <= j < i ==> ws[j].month.Index() == start.Index() + j
      invariant Contiguous(ws)
      invariant i > 0 ==> ws[0].month == start && month == NextMonth(ws[i - 1].month)
    {
      ws := ws + [Window(month)];
      month := NextMonth(month);
      i := i + 1;
    }
  }

  /** The whole range computation: the backward walk from the current month,
      then the forward walk. None when the range start falls before year 1,
      where building its `datetime` raises. */
  method ReportingWindows(now: DateTime) returns (r: Option<seq<Window>>)
    requires now.Valid()
    ensures r.None? <==> now.year == MinYear
    ensures r.Some? ==> |r.value| == 12 && Contiguous(r.value)
    ensures r.Some? ==> r.value[0].month == YearMonth(now.year - 1, now.month)
    ensures r.Some? ==> forall i :: 0 <= i < 11 ==>
      r.value[i + 1].Start() == r.value[i].Next()
    ensures r.Some? ==> r.value[11].Next() == FirstInstant(YearMonth(now.year, now.month))
    ensures r.Some? ==> forall i :: 0 <= i < 12 ==>
      r.value[i].Start().Valid() && r.value[i].Next().Valid() && r.value[i].End().Valid()
  {
    var current := YearMonth(now.year, now.month);
    var start := StartOfRange(current);
    if start.year < MinYear {
      return None;
    }
    var ws := WalkForward(start);
    IndexDetermines(NextMonth(ws[11].month), current);
    forall j | 0 <= j < 12
      ensures ws[j].Start().Valid() && ws[j].Next().Valid() && ws[j].End().Valid()
    {
      WindowInstantsValid(ws[j]);
    }
    r := Some(ws);
  }

  /** Closed intervals of seconds, each nonempty and each ending one second
      before the next begins. */
  predicate Abutting(b: seq<(int, int)>) {
    && (forall i :: 0 <= i < |b| ==> b[i].0 <= b[i].1)
    && (forall i :: 0 <= i < |b| - 1 ==> b[i].1 + 1 == b[i + 1].0)
  }

  /** In abutting intervals every earlier one ends before every later one
      begins. */
  lemma {:induction false} AbuttingOrdered(b: seq<(int, int)>, i: int, j: int)
    requires Abutting(b) && 0 <= i < j < |b|
    ensures b[i].1 < b[j].0
    decreases j - i
  {
    if j > i + 1 {
      AbuttingOrdered(b, i, j - 1);
    }
  }

  /** Abutting intervals cover the span from the first start to the last end
      without gaps: every second of it lies in some interval. */
  lemma {:induction false} AbuttingCover(b: seq<(int, int)>, t: int)
    requires Abutting(b) && |b| > 0
    requires b[0].0 <= t <= b[|b| - 1].1
    ensures exists i :: 0 <= i < |b| && b[i].0 <= t <= b[i].1
    decreases |b|
  {
    if t > b[0].1 {
      var rest := b[1..];
      AbuttingCover(rest, t);
      var k :| 0 <= k < |rest| && rest[k].0 <= t <= rest[k].1;
      assert b[k + 1] == rest[k];
    }
  }

  /** The bounds of each window in seconds, first and last second included. */
  function Bounds(ws: seq<Window>): (b: seq<(int, int)>)
    requires forall i :: 0 <= i < |ws| ==> ws[i].month.Valid()
    ensures |b| == |ws|
    ensures forall i :: 0 <= i < |ws| ==>
      ws[i].month.Valid() && b[i] == (Seconds(ws[i].Start()), Seconds(ws[i].End()))
  {
    seq(|ws|, i requires 0 <= i < |ws| && ws[i].month.Valid() =>
      (Seconds(ws[i].Start()), Seconds(ws[i].End())))
  }

  /** Contiguous windows have abutting bounds. */
  lemma ContiguousAbut(ws: seq<Window>)
    requires Contiguous(ws)
    ensures Abutting(Bounds(ws))
  {
    var b := Bounds(ws);
    forall i | 0 <= i < |ws| - 1
      ensures b[i].1 + 1 == b[i + 1].0
    {
      assert ws[i + 1].Start() == ws[i].Next();
    }
  }

  /** Contiguous windows are chronological and pairwise disjoint: every
      earlier window ends before every later one starts. */
  lemma Chronological(ws: seq<Window>)
    requires Contiguous(ws)
    ensures forall i, j :: 0 <= i < j < |ws| ==> Seconds(ws[i].End()) < Seconds(ws[j].Start())
  {
    ContiguousAbut(ws);
    var b := Bounds(ws);
    forall i, j | 0 <= i < j < |ws|
      ensures Seconds(ws[i].End()) < Seconds(ws[j].Start())
    {
      AbuttingOrdered(b, i, j);
    }
  }

  /** Every second from the first window's start up to the last window's
      next-month start lies in some window. */
  lemma CoverExists(ws: seq<Window>, t: int)
    requires Contiguous(ws) && |ws| > 0
    requires Seconds(ws[0].Start()) <= t < Seconds(ws[|ws| - 1].Next())
    ensures exists i :: 0 <= i < |ws| && ws[i].Contains(t)
  {
    ContiguousAbut(ws);
    var b := Bounds(ws);
    assert b[0].0 == Seconds(ws[0].Start());
    assert b[|b| - 1].1 + 1 == Seconds(ws[|ws| - 1].Next());
    AbuttingCover(b, t);
    var k :| 0 <= k < |b| && b[k].0 <= t <= b[k].1;
    assert ws[k].Contains(t);
  }

  /** No second lies in two of a run of contiguous windows. */
  lemma CoverUnique(ws: seq<Window>, t: int)
    requires Contiguous(ws)
    ensures forall i, j :: 0 <= i < |ws| && 0 <= j < |ws| && ws[i].Contains(t) && ws[j].Contains(t) ==> i == j
  {
    Chronological(ws);
  }

  /** Contiguous windows partition the span from the first window's start up
      to the last window's next-month start: each second of it lies in
      exactly one window. */
  lemma Covers(ws: seq<Window>, t: int)
    requires Contiguous(ws) && |ws| > 0
    requires Seconds(ws[0].Start()) <= t < Seconds(ws[|ws| - 1].Next())
    ensures exists i :: 0 <= i < |ws| && ws[i].Contains(t)
    ensures forall i, j :: 0 <= i < |ws| && 0 <= j < |ws| && ws[i].Contains(t) && ws[j].Contains(t) ==> i == j
  {
    CoverExists(ws, t);
    CoverUnique(ws, t);
  }
}
